=== FILE: README.md ===
# AlohaRoute routing layer in Dafny

This project models the routing (network) layer of the AlohaRoute wireless
sensor-network stack, `AlohaRoute/Routing/routing.c`. Nodes relay application
messages hop by hop toward a single sink over an ALOHA MAC layer. The routing
layer has five parts:

- **Queues.** Two bounded ring buffers of 64 `RoutingMessage`s each: `sendQ`
  holds outbound messages and `recvQ` holds inbound ones. Two counting
  semaphores, `full` and `free`, guard each queue.
- **Codec.** Packets have a 7-byte header: ctrl, dest, relay address, a 2-byte
  hop count and a 2-byte length. The payload follows.
  `buildRoutingPacket` encodes and `buildRoutingMessage` decodes.
- **Next-hop selector.** `getNextHopAddr` draws candidates from a three-entry
  neighbour pool. If the first four draws are all rejected, it makes a fifth
  draw and discards it, returning the sink even when that fifth candidate
  would have been accepted.
- **Receiver loop.** `recvPackets_func` keeps a data packet addressed to this
  node or to everyone. Any other data packet is forwarded, with its hop count
  incremented, to a freshly chosen next hop.
- **Public calls and sender loop.** `routingInit`, `routingSend`,
  `routingReceive` and `routingTimedReceive`. The sender loop
  (`sendPackets_func`) encodes each queued message and hands it to the MAC
  layer.

The model is sequential and functional:

- A node is an immutable `Routing.Context`.
- Each public call and each iteration of a worker loop is a pure function.
- A semaphore wait that would block becomes a precondition that the counter is
  positive.
- The `rand()` values the selector consumes are an explicit sequence `draws`.
- The neighbour pool `NODE_POOL` is defined outside the routing layer, so it is
  a parameter.
- MAC traffic appears as values:
  - a received packet is the byte sequence `MAC_timedrecv` returned (empty on
    timeout);
  - the MAC's last-receive sender is the parameter `prev`;
  - each `MAC_send` is a `Transmission(to, bytes)`.

Modules: `Common` holds the constants of `AlohaRoute/common.h` and the 8- and
16-bit helpers. `RingQueue` is the generic queue, which covers both `sendQ` and
`recvQ`. `Codec`, `NextHop` and `Routing` follow the parts listed above.

Some behaviour of `routing.c` differs from what the surrounding code
suggests was meant. The model keeps the code's behaviour in each case:

- **Next-hop acceptance.** The loop condition at `routing.c:383` contains the
  clause `(addr - self) > 1`, which looks meant to reject lower addresses
  that are not adjacent. Both operands are promoted to `int`, so for
  `addr < self` the difference is negative and the clause never rejects
  anything. Every lower pool entry is accepted (`NextHop.AcceptedIffBelow`,
  `NextHop.NonAdjacentAccepted`).
- **16-bit fields.** The encoder stores one byte for the hop count and one
  for the length (`routing.c:358`, `routing.c:361`). The decoder reads two
  bytes for each, little-endian on the target (`routing.c:292`,
  `routing.c:297`). `Codec.Encode` keeps this asymmetry. The two bytes it
  never writes are explicit parameters.
- **Relay byte.** A relay forwards the buffer it received (`routing.c:248`)
  and does not re-encode it. The `mac.addr` the originator wrote into byte 2
  (`routing.c:355`) is therefore never rewritten: every later node sees the
  originator there, not the previous hop (`Routing.RelayKeepsOrigin`).
- **Buffers.** The sender never frees the encoded packet (`routing.c:337`).
  Memory is not modelled.

## Model

| member | source | states |
|---|---|---|
| RingQueue.Init | AlohaRoute/Routing/routing.c:161-176 | a fresh queue satisfies the counter invariant, holds no items and has all 64 slots free |
| RingQueue.Enqueue | AlohaRoute/Routing/routing.c:177-185 | with a free slot, the invariant is kept, the item becomes the newest element of the contents, exactly one unit moves from `free` to `full`, and only slot `end` changes while `end` advances by one modulo 64 |
| RingQueue.Dequeue | AlohaRoute/Routing/routing.c:186-195 | with an occupied slot, the oldest item is returned and removed from the contents, exactly one unit moves from `full` to `free`, `begin` advances by one modulo 64, and no slot is written |
| RingQueue.TimedDequeue | AlohaRoute/Routing/routing.c:149-160 | the corrected timed dequeue times out exactly when the queue is empty; otherwise it yields the oldest item and keeps the invariant, like the blocking dequeue |
| RingQueue.TimedDequeueAsWritten | AlohaRoute/Routing/routing.c:149-160 | the timed dequeue as written returns the oldest item and advances `begin`, but leaves `full`, `free`, `end` and every slot unchanged, so the slot it read is still counted as occupied |
| RingQueue.TimedDequeueAsWrittenBreaksInvariant | AlohaRoute/Routing/routing.c:155-159 | every successful as-written timed dequeue leaves a queue whose `end` is no longer `full` slots after `begin` |
| RingQueue.TimedDequeueAsWrittenExample | AlohaRoute/Routing/routing.c:155-159 | after one enqueue and one as-written timed dequeue, the queue still reports one occupied slot while head and tail coincide |
| RingQueue.EnqueueAll | AlohaRoute/Routing/routing.c:177-185 | enqueueing a sequence that fits in the free slots appends it, in order, to the contents |
| RingQueue.DequeueN | AlohaRoute/Routing/routing.c:186-195 | dequeueing n items yields the first n items of the contents in order and leaves the rest |
| RingQueue.Fifo | AlohaRoute/Routing/routing.c:177-214 | a consumer that drains the queue after a producer's enqueues receives the old contents and then the new items in enqueue order, with nothing lost or duplicated, and the queue ends empty |
| RingQueue.RunIsFifo | AlohaRoute/Routing/routing.c:177-214 | for any interleaving of enqueues and dequeues that never waits, the items taken, followed by what is left in the queue, are exactly the initial contents followed by the enqueued items in order; the invariant holds at the end |
| RingQueue.CountersBounded | AlohaRoute/Routing/routing.c:161-214 | unpacks the queue invariant: `full` is the number of items held, `full + free == 64`, and both lie in [0, 64] (that each operation keeps the invariant is in the contracts of `Enqueue`, `Dequeue` and `TimedDequeue`) |
| Codec.Encode | AlohaRoute/Routing/routing.c:344-374 | the packet is `len + 7` bytes: ctrl, dest, the encoder's own address (not `msg.src`), the low byte of the hop count, an unwritten byte, the low byte of the length, an unwritten byte, then the payload |
| Codec.Decode | AlohaRoute/Routing/routing.c:277-310 | ctrl, dest and src come from bytes 0-2 and `prev` from the MAC; the hop count read from bytes 3-4 goes up by exactly one modulo 2^16 and is written back there, no other byte changes, and the payload is the `len` bytes after the header (empty when `len` is 0) |
| Codec.WriteBackReadsBack | AlohaRoute/Routing/routing.c:291-295 | the written-back bytes 3-4 read back as the returned hop count, and the packet still parses with the same declared length |
| Codec.RedecodeKeepsFields | AlohaRoute/Routing/routing.c:277-310 | decoding the written-back bytes again yields the same ctrl, destination, source byte, length and payload as the first decode |
| Codec.DecodeEncode | AlohaRoute/Routing/routing.c:277-374 | for any message, any unwritten hop-count high byte, and any unwritten length high byte that keeps the declared length within the packet (so 0 whenever `len < 256`), decoding an encoded packet gives the same ctrl and dest, the encoder as source, and 16-bit fields rebuilt from the written low byte and the unwritten high byte |
| Codec.RoundTrip | AlohaRoute/Routing/routing.c:277-374 | with the unwritten bytes zero and a payload shorter than 256 bytes, decode(encode(m)) returns m's ctrl, dest, length and payload, with the encoder as source; its hop count is m's plus one exactly when m's was below 256 |
| Codec.HopCountTruncated | AlohaRoute/Routing/routing.c:358-359 | example: a message with hop count 256, encoded with the unwritten byte 4 zero, arrives with hop count 1 (the general statement is `Codec.DecodeEncode`) |
| Codec.LengthTruncated | AlohaRoute/Routing/routing.c:361-362 | a payload of 256 bytes or more arrives with length `len % 256` |
| Codec.DecodeTwice | AlohaRoute/Routing/routing.c:291-294 | two successive decodes of the forwarded bytes add two hops modulo 2^16 |
| NextHop.AcceptedIffBelow | AlohaRoute/Routing/routing.c:383 | the loop condition, evaluated in `int`, accepts a candidate exactly when it is below `self` |
| NextHop.Trial | AlohaRoute/Routing/routing.c:379-384 | from any trial count up to four, the loop stops within the remaining trials and returns the first accepted candidate, or the sink after the fifth draw, with every draw before it rejected |
| NextHop.Select | AlohaRoute/Routing/routing.c:375-385 | the result is a pool entry below `self` or the sink, after 1 to 5 draws; a result found within four draws is that draw's candidate, and every earlier draw was rejected |
| NextHop.SinkIffNoneBelow | AlohaRoute/Routing/routing.c:379-384 | the selector falls back to the sink, after exactly five draws, if and only if none of the first four candidates is below `self` |
| NextHop.FirstBelowChosen | AlohaRoute/Routing/routing.c:379-384 | when draw i is the first of the first four whose candidate is below `self`, the selector returns that candidate after i + 1 draws |
| NextHop.FifthDrawOverridden | AlohaRoute/Routing/routing.c:383-384 | example: node 5 with pool 6, 4, 8 rejects four draws and gets the sink although the fifth candidate, 4, is below it (the general statement is `NextHop.SinkIffNoneBelow`) |
| NextHop.NonAdjacentAccepted | AlohaRoute/Routing/routing.c:383 | node 5 accepts candidate 3 although it is two addresses away |
| NextHop.SecondDrawAccepted | AlohaRoute/Routing/routing.c:379-384 | example: node 4 with pool 4, 3, 1 rejects a first draw naming itself and accepts 3 on the second draw |
| Routing.Init | AlohaRoute/Routing/routing.c:54-82 | both queues start empty and the node invariant holds; the receiver worker always starts, and the sender starts exactly when the node is not the sink |
| Routing.Send | AlohaRoute/Routing/routing.c:84-107 | returns 1 and appends exactly one message after the existing outbound ones: ctrl `CTRL_PKT`, source the node itself, zero hops, the given destination, a copy of the payload, its length truncated to 16 bits, and as next hop the selector's choice, which is the sink or a lower pool entry; the inbound queue is untouched |
| Routing.Receive | AlohaRoute/Routing/routing.c:109-125 | hands the application the oldest inbound message's destination, source, hop count and its `len` payload bytes, and returns `len`; the node changes only in its inbound queue, which loses exactly that message |
| Routing.TimedReceive | AlohaRoute/Routing/routing.c:127-148 | reports "no message" exactly when the inbound queue is empty, and then changes nothing; otherwise it behaves like `Receive`, changing only the inbound queue |
| Routing.TimedReceiveAsWritten | AlohaRoute/Routing/routing.c:127-148 | on an empty queue, the call as written reports the fields of the uninitialised local record; otherwise it reports the oldest message but leaves `full` unchanged |
| Routing.TimedReceiveAsWrittenTimeoutUnspecified | AlohaRoute/Routing/routing.c:129-137 | on a timeout, two different stale stack records give two different reports, while the corrected call says no message arrived |
| Routing.SenderStep | AlohaRoute/Routing/routing.c:316-330 | runs only on a node whose sender worker was started, so never on the sink; it removes the oldest outbound message and hands its encoding to the MAC addressed to that message's precomputed next hop; the inbound queue is untouched |
| Routing.Dispatch | AlohaRoute/Routing/routing.c:228-272 | a timeout or a non-data tag is dropped; a data packet for broadcast or for this node is delivered as its decoded message; any other data packet is forwarded to the selector's choice with the same bytes except the incremented hop count at offsets 3-4 (the origin byte 2 is kept); each case holds exactly when its condition on the received bytes does |
| Routing.ReceiverStep | AlohaRoute/Routing/routing.c:215-274 | a packet for this node or broadcast adds exactly one message to the inbound queue and sends nothing; any other data packet sends exactly one packet, to the selector's choice, holding the received bytes with only the hop count at offsets 3-4 incremented, and leaves the inbound queue unchanged; everything else does neither |
| Routing.SendTransmits | AlohaRoute/Routing/routing.c:84-107 | on a node other than the sink with an empty outbound queue, a send followed by one sender iteration transmits to the selector's choice the header `CTRL_PKT`, dest, the node's own address, hop count 0, the length, then the payload, and empties the queue again |
| Routing.FreshPacketDecodes | AlohaRoute/Routing/routing.c:277-310 | a packet fresh from a sender (payload under 256 bytes, unwritten bytes zero) decodes to hop count 1, the sender as source, and the payload unchanged |
| Routing.ArrivalDelivers | AlohaRoute/Routing/routing.c:109-125 | a node with an empty inbound queue that receives such a packet addressed to it or to everyone keeps it, sends nothing, and the next receive hands the application the destination, the sender, one hop and the payload |
| Routing.OneHopDelivery | AlohaRoute/Routing/routing.c:84-125 | what a node other than the sink sends reaches a node it is addressed to as a delivery of the same payload from the sender with hop count 1, and nothing is retransmitted |
| Routing.RelayKeepsOrigin | AlohaRoute/Routing/routing.c:237-248 | a relay forwards without re-encoding, so the next node decodes the same destination, the originator (not the relay) as source, the same payload, and a hop count two above the received one |
| Routing.SendScenario | AlohaRoute/Routing/routing.c:84-107 | node 5 with pool 4, 3, 1 sending 5 bytes to the sink, first draw naming 4, hands the 12-byte packet `45 07 05 00 00 05 00` plus the payload to node 4 |
| Routing.ForwardScenario | AlohaRoute/Routing/routing.c:228-263 | node 4 receiving that packet, draws naming 4 and then 3, forwards the same bytes with hop count 1 to node 3 |

## Left out

- Threads, the mutex and the semaphores as real concurrency, thread creation and its `exit(1)` on failure. The model is sequential; a wait that would block is a precondition, and liveness is not modelled.
- The MAC layer (`MAC_init`, `MAC_send`, `MAC_timedrecv`, the `MAC` and `MAC_Header` records). Its bodies are not part of this model. Received bytes, the last-receive sender and sent packets are values. Whether `MAC_send` succeeds is ignored, because both branches only log.
- `rand()` and `srand`. An explicit sequence of drawn values replaces them.
- `NODE_POOL`, which is declared but not defined in the routing layer. It is a parameter of length `POOL_SIZE`.
- Logging (`printf`, `timestamp`), the debug flag and `setDebug`. They have no effect on state.
- The RSSI in the header `routingReceive` and `routingTimedReceive` return. It is a shared MAC field that the receiver thread overwrites, not a per-message value.
- The MAC configuration `routingInit` sets (debug, receive timeout, noise threshold -65), and `initMAC`/`GPIO_init`, which are unused hardware setup.
- `malloc`/`free`, including allocation failure. Allocation is taken to succeed. Also left out: the receiver's `pkt == NULL` branch, the sender's `pkt == NULL` branch, the second `memcpy` in `routingSend` after a possibly failed allocation, and the encoded packet the sender never frees.
- The 240-byte receive buffer and the missing check of `len` against `pktSize`. The dispatcher instead requires a received data packet to carry its full header and declared payload (`Codec.Parsable`), so a read past the received bytes is not modelled.
- The clock and the deadline arithmetic of `routingTimedReceive`. In the sequential model nothing can arrive while it waits, so it times out exactly when the inbound queue is empty.
- Record fields the source leaves uninitialised and never reads afterwards: `prev` of a sent message and `next` of a decoded one. They are 0 in the model.
- Codec.Encode: requires `len + 7 < 65536`. The wrap of the 16-bit `routePktSize` for larger lengths, and the buffer overrun it would cause, are not modelled.
- Routing.Send: requires a payload shorter than 2^32 bytes, the range of the `unsigned int len` parameter. Within that range the message length is the payload length modulo 2^16, as the contract states.
- `AlohaRoute/main.c` (a command-line driver over other protocol layers whose sources are not part of this model) and `AlohaRoute/logs/script.py` (log plotting).

## Findings

| source | as written | input that shows it | evidently intended | confidence | as-written member | corrected member |
|---|---|---|---|---|---|---|
| AlohaRoute/Routing/routing.c:159 | the timed dequeue posts `full` after taking an item, undoing its own wait, so `full` and `free` stay unchanged while `begin` advances | a queue holding one message: after the timed dequeue it still reports `full == 1` with `begin == end`, and a later dequeue would read a slot that holds no message | post `free`, as the blocking dequeue at line 212 does | high, not executed | RingQueue.TimedDequeueAsWritten, RingQueue.TimedDequeueAsWrittenBreaksInvariant | RingQueue.TimedDequeue |
| AlohaRoute/Routing/routing.c:133-147 | on timeout, `recvMsgQ_timed_dequeue` returns without assigning `msg`, and the caller copies the header fields and length out of the uninitialised record | an empty inbound queue: the result depends on leftover stack contents (length 0 for one stale record, length 1 and payload `09` for another) | report "no message" and leave the outputs alone | high, not executed | Routing.TimedReceiveAsWritten, Routing.TimedReceiveAsWrittenTimeoutUnspecified | Routing.TimedReceive |

=== FILE: codec.dfy ===
/** The routing message record and the wire codec of AlohaRoute/Routing/routing.c:
    `buildRoutingPacket` (encode) and `buildRoutingMessage` (decode).

    Wire layout: ctrl, dest, relay (the transmitting node), hop count (2 bytes),
    payload length (2 bytes), payload. Decode reads each 16-bit field with
    `memcpy` in host order, little-endian on the target. Encode stores only the
    low byte of each 16-bit field and skips the high byte, which stays whatever
    `malloc` returned; those two bytes are explicit parameters here. */
module Codec {
  import opened Common

  /** `RoutingMessage`. `prev` is the link-layer sender reported by the MAC, and
      `next` is the relay chosen for the upcoming hop. */
  datatype Message = Message(
    src: byte,
    prev: byte,
    numHops: u16,
    dest: byte,
    next: byte,
    data: seq<byte>,
    len: u16,
    ctrl: byte)

  /** The all-zero record (the initial contents of a static slot array). */
  const Zero := Message(0, 0, 0, 0, 0, [], 0, 0)

  /** `len` bytes of payload are really present, so copying `len` bytes out of
      `data` stays in bounds. */
  predicate Fits(m: Message)
  {
    m.len <= |m.data|
  }

  /** Every message of `s` fits. */
  predicate AllFit(s: seq<Message>)
  {
    forall i :: 0 <= i < |s| ==> Fits(s[i])
  }

  /** The `len` payload bytes a copy out of the message transfers. */
  function Payload(m: Message): (p: seq<byte>)
    requires Fits(m)
    ensures |p| == m.len
  {
    m.data[..m.len]
  }

  /** The message can be laid out in a buffer whose size fits the
      `uint16_t routePktSize` of the encoder. */
  predicate Encodable(m: Message)
  {
    Fits(m) && m.len + HeaderSize < 0x1_0000
  }

  /** `buildRoutingPacket`: the packet the node `self` transmits for `m`.
      `hopsHi` and `lenHi` are the bytes at offsets 4 and 6, which the encoder
      never writes. */
  function Encode(m: Message, self: byte, hopsHi: byte, lenHi: byte): (pkt: seq<byte>)
    requires Encodable(m)
    ensures |pkt| == m.len + HeaderSize
    ensures pkt[0] == m.ctrl && pkt[1] == m.dest && pkt[2] == self
    ensures pkt[3] == m.numHops % 0x100 && pkt[4] == hopsHi
    ensures pkt[5] == m.len % 0x100 && pkt[6] == lenHi
    ensures pkt[HeaderSize..] == Payload(m)
  {
    [m.ctrl, m.dest, self, Lo(m.numHops), hopsHi, Lo(m.len), lenHi] + Payload(m)
  }

  /** The hop-count field (offsets 3-4) as decode reads it. */
  function HopField(pkt: seq<byte>): u16
    requires |pkt| >= HeaderSize
  {
    Le16(pkt[3], pkt[4])
  }

  /** The length field (offsets 5-6) as decode reads it. */
  function LenField(pkt: seq<byte>): u16
    requires |pkt| >= HeaderSize
  {
    Le16(pkt[5], pkt[6])
  }

  /** A packet whose header is complete and whose declared payload lies inside
      the received bytes. */
  predicate Parsable(pkt: seq<byte>)
  {
    |pkt| >= HeaderSize && HeaderSize + LenField(pkt) <= |pkt|
  }

  /** What decode yields: the message, and the packet bytes as decode leaves
      them (with the incremented hop count written back). */
  datatype Decoded = Decoded(msg: Message, raw: seq<byte>)

  /** `buildRoutingMessage`: `prev` is the MAC's last-receive sender address,
      not a wire field. The record's `next` is left unset by the source and is
      0 here. */
  function Decode(pkt: seq<byte>, prev: byte): (r: Decoded)
    requires Parsable(pkt)
    ensures r.msg.ctrl == pkt[0] && r.msg.dest == pkt[1] && r.msg.src == pkt[2]
    ensures r.msg.prev == prev
    ensures r.msg.numHops == HopField(pkt) + 1 || (HopField(pkt) == 0xFFFF && r.msg.numHops == 0)
    ensures |r.raw| == |pkt| && r.raw[3] == Lo(r.msg.numHops) && r.raw[4] == Hi(r.msg.numHops)
    ensures forall i :: 0 <= i < |pkt| && i != 3 && i != 4 ==> r.raw[i] == pkt[i]
    ensures r.msg.len == LenField(pkt) && |r.msg.data| == r.msg.len
    ensures r.msg.data == pkt[HeaderSize..HeaderSize + r.msg.len]
  {
    var hops := Inc16(HopField(pkt));
    var len := LenField(pkt);
    LoHiLe16(pkt[3], pkt[4]);
    Le16LoHi(hops);
    var msg := Message(
      src := pkt[2],
      prev := prev,
      numHops := hops,
      dest := pkt[1],
      next := 0,
      data := pkt[HeaderSize..HeaderSize + len],
      len := len,
      ctrl := pkt[0]);
    Decoded(msg, pkt[3 := Lo(hops)][4 := Hi(hops)])
  }

  /** The bytes decode writes back at offsets 3-4 read, as a 16-bit field,
      as the incremented hop count it returns, and the packet still parses
      with the same declared length. */
  lemma {:induction false} WriteBackReadsBack(pkt: seq<byte>, prev: byte)
    requires Parsable(pkt)
    ensures var r := Decode(pkt, prev);
            && Parsable(r.raw) && HopField(r.raw) == r.msg.numHops
            && LenField(r.raw) == LenField(pkt)
  {
    var r := Decode(pkt, prev);
    Le16LoHi(r.msg.numHops);
    assert r.raw[5] == pkt[5] && r.raw[6] == pkt[6];
  }

  /** What the decoder sees in an encoded packet, for any message, any
      unwritten hop-count high byte, and any unwritten length high byte that
      keeps the declared length within the packet (so that byte is 0 whenever
      `len < 256`): only the low byte of each 16-bit field survives, completed
      by the garbage high byte. */
  lemma {:induction false} DecodeEncode(m: Message, self: byte, hopsHi: byte, lenHi: byte, prev: byte)
    requires Encodable(m)
    requires m.len % 0x100 + 0x100 * lenHi <= m.len
    ensures Parsable(Encode(m, self, hopsHi, lenHi))
    ensures var d := Decode(Encode(m, self, hopsHi, lenHi), prev).msg;
            && d.ctrl == m.ctrl && d.dest == m.dest && d.src == self && d.prev == prev
            && d.numHops == Inc16(m.numHops % 0x100 + 0x100 * hopsHi)
            && d.len == m.len % 0x100 + 0x100 * lenHi
            && d.data == m.data[..d.len]
  {
    var pkt := Encode(m, self, hopsHi, lenHi);
    assert LenField(pkt) == m.len % 0x100 + 0x100 * lenHi;
    var d := Decode(pkt, prev).msg;
    var tail := pkt[HeaderSize..];
    assert tail == m.data[..m.len];
    assert d.data == tail[..d.len];
    assert m.data[..m.len][..d.len] == m.data[..d.len];
  }

  /** Round trip. With the unwritten bytes zero and a payload shorter than 256
      bytes, decode returns the encoded message's ctrl, dest, length and
      payload, the encoder's address as source, the MAC's sender as `prev`,
      and a hop count one higher exactly when the hop count was below 256. */
  lemma {:induction false} RoundTrip(m: Message, self: byte, prev: byte)
    requires Encodable(m) && m.len == |m.data|
    requires m.len < 0x100
    ensures Parsable(Encode(m, self, 0, 0))
    ensures var d := Decode(Encode(m, self, 0, 0), prev).msg;
            && d.ctrl == m.ctrl && d.dest == m.dest && d.len == m.len && d.data == m.data
            && d.src == self && d.prev == prev
            && (d.numHops == m.numHops + 1 <==> m.numHops < 0x100)
  {
    DecodeEncode(m, self, 0, 0, prev);
    assert m.data[..m.len] == m.data;
  }

  /** The asymmetry shows at 256 hops: the encoder keeps the low byte 0, so the
      next node reads 0 and counts 1 instead of 257. */
  lemma HopCountTruncated(self: byte, prev: byte)
    ensures var m := Zero.(numHops := 0x100, ctrl := CtrlPkt);
            Decode(Encode(m, self, 0, 0), prev).msg.numHops == 1
  {
    var m := Zero.(numHops := 0x100, ctrl := CtrlPkt);
    DecodeEncode(m, self, 0, 0, prev);
  }

  /** A payload of 256 bytes or more is cut short on the wire: with the
      unwritten length byte zero, the decoder reads only `len % 256` bytes. */
  lemma {:induction false} LengthTruncated(m: Message, self: byte, prev: byte)
    requires Encodable(m) && m.len >= 0x100
    ensures Parsable(Encode(m, self, 0, 0))
    ensures Decode(Encode(m, self, 0, 0), prev).msg.len == m.len % 0x100 < m.len
  {
    DecodeEncode(m, self, 0, 0, prev);
  }

  /** Each decode of the bytes a relay forwards adds one hop: a packet decoded
      and written back twice carries its original count plus two. */
  lemma {:induction false} DecodeTwice(pkt: seq<byte>, prev1: byte, prev2: byte)
    requires Parsable(pkt)
    ensures Parsable(Decode(pkt, prev1).raw)
    ensures Decode(Decode(pkt, prev1).raw, prev2).msg.numHops == (HopField(pkt) + 2) % 0x1_0000
  {
    var r1 := Decode(pkt, prev1);
    Le16LoHi(r1.msg.numHops);
    assert HopField(r1.raw) == r1.msg.numHops;
    assert r1.raw[5] == pkt[5] && r1.raw[6] == pkt[6];
    assert LenField(r1.raw) == LenField(pkt);
    Inc16Twice(HopField(pkt));
  }

  /** Decoding the written-back bytes again keeps every wire field but the
      hop count: the same ctrl, destination, source byte and payload. */
  lemma {:induction false} RedecodeKeepsFields(pkt: seq<byte>, prev1: byte, prev2: byte)
    requires Parsable(pkt)
    ensures Parsable(Decode(pkt, prev1).raw)
    ensures var d1 := Decode(pkt, prev1).msg;
            var d2 := Decode(Decode(pkt, prev1).raw, prev2).msg;
            && d2.ctrl == d1.ctrl && d2.dest == d1.dest && d2.src == d1.src
            && d2.len == d1.len && d2.data == d1.data
  {
    var r1 := Decode(pkt, prev1);
    WriteBackReadsBack(pkt, prev1);
    var n := LenField(pkt);
    assert r1.raw[HeaderSize..HeaderSize + n] == pkt[HeaderSize..HeaderSize + n];
  }
}

=== FILE: common.dfy ===
/** Constants and machine types shared by the routing layer (AlohaRoute/common.h
    and the file-level constants of AlohaRoute/Routing/routing.c). */
module Common {

  /** An unsigned 8-bit value (`uint8_t`). */
  type byte = x: int | 0 <= x < 0x100

  /** An unsigned 16-bit value (`uint16_t`). */
  type u16 = x: int | 0 <= x < 0x1_0000

  /** Control tag of a routing-layer data packet. */
  const CtrlPkt: byte := 0x45
  /** Control tag of a routing-layer beacon (owned by a higher layer). */
  const CtrlBcn: byte := 0x47
  /** Control tag of routing-table information (owned by a higher layer). */
  const CtrlTab: byte := 0x48

  /** Destination address that every node keeps. */
  const AddrBroadcast: byte := 0xFF
  /** Address of the sink: the next-hop fallback, and the node that runs no sender. */
  const AddrSink: byte := 0x07

  /** Number of entries of the static neighbour pool. */
  const PoolSize: nat := 3
  /** Number of draws the next-hop selector may accept a candidate from. */
  const MaxTrials: nat := 4
  /** Bytes before the payload on the wire: ctrl, dest, relay, hop count (2), length (2). */
  const HeaderSize: nat := 7

  /** Low byte of a 16-bit value. */
  function Lo(x: u16): byte { x % 0x100 }

  /** High byte of a 16-bit value. */
  function Hi(x: u16): byte { x / 0x100 }

  /** The 16-bit value stored little-endian in the two bytes `lo`, `hi`
      (what `memcpy` into a `uint16_t` yields on the little-endian target). */
  function Le16(lo: byte, hi: byte): u16 { lo + 0x100 * hi }

  /** Increment of a `uint16_t`, wrapping at 2^16. */
  function Inc16(x: u16): (r: u16)
    ensures r == 0 <==> x == 0xFFFF
    ensures x < 0xFFFF ==> r == x + 1
  {
    if x == 0xFFFF then 0 else x + 1
  }

  /** Two increments add two, modulo 2^16. */
  lemma Inc16Twice(x: u16)
    ensures Inc16(Inc16(x)) == (x + 2) % 0x1_0000
  {
    if x == 0xFFFE {
      assert Inc16(Inc16(x)) == 0;
    } else if x == 0xFFFF {
      assert Inc16(Inc16(x)) == 1;
    }
  }

  /** Truncating conversion of a non-negative integer to `uint16_t`. */
  function ToU16(x: nat): (r: u16)
    ensures x < 0x1_0000 ==> r == x
    ensures r <= x
  {
    x % 0x1_0000
  }

  lemma Le16LoHi(x: u16)
    ensures Le16(Lo(x), Hi(x)) == x
  {
  }

  lemma LoHiLe16(lo: byte, hi: byte)
    ensures Lo(Le16(lo, hi)) == lo && Hi(Le16(lo, hi)) == hi
  {
  }
}

=== FILE: nexthop.dfy ===
/** The next-hop selector `getNextHopAddr` of AlohaRoute/Routing/routing.c.
    The neighbour pool `NODE_POOL` is defined outside the routing layer and is a
    parameter; the values `rand()` returns are an oracle sequence `draws`, of
    which the selector reads a prefix. */
module NextHop {
  import opened Common

  /** The chosen address and the number of draws consumed. */
  datatype Selection = Selection(addr: byte, used: nat)

  /** `NODE_POOL[rand() % POOL_SIZE]` for the draw with index `i`. */
  function Candidate(pool: seq<byte>, draws: seq<nat>, i: nat): byte
    requires |pool| == PoolSize && i < |draws|
  {
    pool[draws[i] % PoolSize]
  }

  /** The acceptance test as the source evaluates it: the loop goes on while
      `addr >= self || (addr - self) > 1`, with the subtraction done in `int`
      after promotion of the two `uint8_t` operands. */
  predicate Accepted(addr: byte, self: byte)
  {
    !(addr >= self || addr - self > 1)
  }

  /** For `addr < self` the difference `addr - self` is negative, so the second
      disjunct never rejects: the test accepts exactly the lower addresses. */
  lemma AcceptedIffBelow(addr: byte, self: byte)
    ensures Accepted(addr, self) <==> addr < self
  {
  }

  /** The `do … while` loop of `getNextHopAddr` after `trial` draws have
      been made and rejected: draw, count the trial, and go on while the
      candidate is rejected and `trial <= maxTrials`; once the count exceeds
      `maxTrials` the sink is returned, even if that last candidate would
      have been accepted. */
  function Trial(self: byte, pool: seq<byte>, draws: seq<nat>, trial: nat): (r: Selection)
    requires |pool| == PoolSize && |draws| > MaxTrials
    requires trial <= MaxTrials
    ensures trial < r.used <= MaxTrials + 1
    ensures r.used <= MaxTrials ==> r.addr == Candidate(pool, draws, r.used - 1) && r.addr < self
    ensures r.used == MaxTrials + 1 ==> r.addr == AddrSink
    ensures forall j :: trial <= j < r.used - 1 ==> Candidate(pool, draws, j) >= self
    decreases MaxTrials - trial
  {
    var addr := Candidate(pool, draws, trial);
    var t := trial + 1;
    if !Accepted(addr, self) && t <= MaxTrials then
      Trial(self, pool, draws, t)
    else
      Selection(if t > MaxTrials then AddrSink else addr, t)
  }

  /** `getNextHopAddr(self)`: the result is a pool entry below `self`, found
      among the first `maxTrials` draws, or the sink after `maxTrials + 1`
      draws; every draw before the one that decides was rejected. */
  function Select(self: byte, pool: seq<byte>, draws: seq<nat>): (r: Selection)
    requires |pool| == PoolSize && |draws| > MaxTrials
    ensures 1 <= r.used <= MaxTrials + 1
    ensures r.addr == AddrSink || (r.addr in pool && r.addr < self)
    ensures r.used <= MaxTrials ==> r.addr == Candidate(pool, draws, r.used - 1) && r.addr < self
    ensures r.used == MaxTrials + 1 ==> r.addr == AddrSink
    ensures forall j :: 0 <= j < r.used - 1 ==> Candidate(pool, draws, j) >= self
  {
    Trial(self, pool, draws, 0)
  }

  /** Reference definition: some of the first `maxTrials` draws names a pool
      entry below `self`. */
  predicate SomeBelow(self: byte, pool: seq<byte>, draws: seq<nat>)
    requires |pool| == PoolSize && |draws| >= MaxTrials
  {
    exists i :: 0 <= i < MaxTrials && Candidate(pool, draws, i) < self
  }

  /** With no lower candidate among the first `maxTrials` draws the selector
      falls back to the sink after exactly `maxTrials + 1` draws, and it falls
      back only then. */
  lemma {:induction false} SinkIffNoneBelow(self: byte, pool: seq<byte>, draws: seq<nat>)
    requires |pool| == PoolSize && |draws| > MaxTrials
    ensures SomeBelow(self, pool, draws) <==> Select(self, pool, draws).used <= MaxTrials
    ensures !SomeBelow(self, pool, draws) ==> Select(self, pool, draws) == Selection(AddrSink, MaxTrials + 1)
  {
    var r := Select(self, pool, draws);
    if SomeBelow(self, pool, draws) {
      var k :| 0 <= k < MaxTrials && Candidate(pool, draws, k) < self;
      assert r.used - 1 <= k;
    }
  }

  /** The selector returns the first of the first `maxTrials` candidates that
      lies below `self`, having consumed exactly the draws up to it. */
  lemma {:induction false} FirstBelowChosen(self: byte, pool: seq<byte>, draws: seq<nat>, i: nat)
    requires |pool| == PoolSize && |draws| > MaxTrials
    requires i < MaxTrials && Candidate(pool, draws, i) < self
    requires forall j :: 0 <= j < i ==> Candidate(pool, draws, j) >= self
    ensures Select(self, pool, draws) == Selection(Candidate(pool, draws, i), i + 1)
  {
    var r := Select(self, pool, draws);
    assert !(i < r.used - 1);
    assert !(r.used - 1 < i);
  }

  /** A fifth draw is made once the first four are rejected, and its candidate
      is overridden by the sink even when it lies below `self`. */
  lemma FifthDrawOverridden()
    ensures Select(5, [6, 4, 8], [0, 2, 0, 2, 1]) == Selection(AddrSink, 5)
    ensures Candidate([6, 4, 8], [0, 2, 0, 2, 1], 4) == 4 < 5
  {
  }

  /** Any lower pool entry is accepted, not only the adjacent one: node 5 with
      pool 4, 3, 1 takes 3 when the first draw names it. */
  lemma NonAdjacentAccepted()
    ensures Select(5, [4, 3, 1], [1, 0, 0, 0, 0]) == Selection(3, 1)
  {
  }

  /** Node 4 with the same pool rejects a first draw naming itself and takes
      3 on the second draw. */
  lemma SecondDrawAccepted()
    ensures Select(4, [4, 3, 1], [0, 1, 0, 0, 0]) == Selection(3, 2)
  {
  }
}

=== FILE: queue.dfy ===
/** The bounded ring-buffer queue of AlohaRoute/Routing/routing.c (`RoutingQueue`,
    used twice: `sendQ` and `recvQ`, whose code is identical). The two counting
    semaphores `full` and `free` become plain counters; a `sem_wait` that would
    block becomes a precondition that the counter is positive; the mutex has no
    counterpart in this sequential model. */
module RingQueue {

  /** `RoutingQueueSize`. */
  const Capacity: nat := 64

  /** The queue record: the slot array, the head index `begin`, the tail index
      `end`, the number of occupied slots `full` and of free slots `free`. */
  datatype Queue<T> = Queue(slots: seq<T>, begin: nat, end: nat, full: nat, free: nat)

  /** The invariant that the semaphore discipline maintains. */
  predicate Valid<T>(q: Queue<T>)
  {
    && |q.slots| == Capacity
    && q.begin < Capacity
    && q.end < Capacity
    && q.full <= Capacity
    && q.free <= Capacity
    && q.full + q.free == Capacity
    && q.end == (q.begin + q.full) % Capacity
  }

  /** The items held, oldest first: `full` slots starting at `begin`, wrapping. */
  function Contents<T>(q: Queue<T>): (s: seq<T>)
    requires Valid(q)
    ensures |s| == q.full
  {
    seq(q.full, i requires 0 <= i < q.full => q.slots[(q.begin + i) % Capacity])
  }

  /** `sendQ_init` / `recvQ_init`: both indices 0, `full` 0, `free` 64. The slots
      of the static array start as `fill`. */
  function Init<T>(fill: T): (q: Queue<T>)
    ensures Valid(q)
    ensures Contents(q) == []
    ensures q.free == Capacity
  {
    Queue(seq(Capacity, _ => fill), 0, 0, 0, Capacity)
  }

  /** `sendQ_enqueue` / `recvQ_enqueue`: waits on `free`, stores at `end`,
      advances `end`, posts `full`. */
  function Enqueue<T>(q: Queue<T>, x: T): (q': Queue<T>)
    requires Valid(q)
    requires q.free > 0
    ensures Valid(q')
    ensures Contents(q') == Contents(q) + [x]
    ensures q'.full == q.full + 1 && q'.free == q.free - 1
    ensures q'.begin == q.begin && q'.end == (q.end + 1) % Capacity
    ensures |q'.slots| == |q.slots| && q'.slots[q.end] == x
    ensures forall k :: 0 <= k < |q.slots| && k != q.end ==> q'.slots[k] == q.slots[k]
  {
    var q' := Queue(q.slots[q.end := x], q.begin, (q.end + 1) % Capacity, q.full + 1, q.free - 1);
    assert Valid(q') by {
      ModAddOne(q.begin + q.full);
    }
    assert Contents(q') == Contents(q) + [x] by {
      forall i | 0 <= i < q.full
        ensures Contents(q')[i] == Contents(q)[i]
      {
        ModDistinct(q.begin, i, q.full);
        assert (q.begin + i) % Capacity != q.end;
      }
      assert Contents(q')[q.full] == q'.slots[q.end] == x;
    }
    q'
  }

  /** Stepping a wrapped index by one is stepping the unwrapped one. */
  lemma ModAddOne(n: nat)
    ensures (n % Capacity + 1) % Capacity == (n + 1) % Capacity
  {
  }

  /** Two offsets below 64 from the same base land on distinct slots. */
  lemma ModDistinct(b: nat, i: nat, j: nat)
    requires b < Capacity && i < j < Capacity
    ensures (b + i) % Capacity != (b + j) % Capacity
  {
    if b + i >= Capacity {
      assert (b + i) % Capacity == b + i - Capacity;
      assert (b + j) % Capacity == b + j - Capacity;
    } else if b + j >= Capacity {
      assert (b + j) % Capacity == b + j - Capacity;
    }
  }

  /** Advancing the head by one and then by `i` is advancing it by `1 + i`. */
  lemma ModStep(b: nat, i: nat)
    requires b < Capacity && i <= Capacity
    ensures ((b + 1) % Capacity + i) % Capacity == (b + 1 + i) % Capacity
  {
    if b + 1 == Capacity {
      assert (b + 1) % Capacity == 0;
      assert (b + 1 + i) % Capacity == i % Capacity;
    }
  }

  /** `sendQ_dequeue` / `recvMsgQ_dequeue`: waits on `full`, reads slot `begin`,
      advances `begin`, posts `free`. No slot is written. */
  function Dequeue<T>(q: Queue<T>): (r: (T, Queue<T>))
    requires Valid(q)
    requires q.full > 0
    ensures Valid(r.1)
    ensures r.0 == Contents(q)[0]
    ensures Contents(r.1) == Contents(q)[1..]
    ensures r.1.full == q.full - 1 && r.1.free == q.free + 1
    ensures r.1.begin == (q.begin + 1) % Capacity && r.1.end == q.end
    ensures r.1.slots == q.slots
  {
    var q' := Queue(q.slots, (q.begin + 1) % Capacity, q.end, q.full - 1, q.free + 1);
    assert Valid(q') by {
      ModStep(q.begin, q.full - 1);
    }
    forall i | 0 <= i < q.full - 1
      ensures Contents(q')[i] == Contents(q)[i + 1]
    {
      ModStep(q.begin, i);
    }
    assert Contents(q') == Contents(q)[1..];
    (q.slots[q.begin], q')
  }

  /** Result of the timed dequeue: the deadline passed, or an item and the new queue. */
  datatype Timed<T> = TimedOut | Took(item: T, rest: Queue<T>)

  /** The timed dequeue with the post it evidently intends (`free`, as in the
      blocking dequeue). Sequentially nothing can post `full` while it waits, so
      it times out exactly when the queue is empty, and then changes nothing. */
  function TimedDequeue<T>(q: Queue<T>): (r: Timed<T>)
    requires Valid(q)
    ensures r.TimedOut? <==> q.full == 0
    ensures r.Took? ==> Valid(r.rest) && [r.item] + Contents(r.rest) == Contents(q)
    ensures r.Took? ==> r.rest.full + 1 == q.full && r.rest.free == q.free + 1
  {
    if q.full == 0 then TimedOut
    else
      var (x, q') := Dequeue(q);
      Took(x, q')
  }

  /** `recvMsgQ_timed_dequeue` as written: after taking an item it posts `full`
      (undoing its own wait) instead of `free`, so only `begin` moves. */
  function TimedDequeueAsWritten<T>(q: Queue<T>): (r: Timed<T>)
    requires Valid(q)
    ensures r.TimedOut? <==> q.full == 0
    ensures r.Took? ==> r.item == Contents(q)[0]
    ensures r.Took? ==> r.rest.full == q.full && r.rest.free == q.free && r.rest.end == q.end
    ensures r.Took? ==> r.rest.begin == (q.begin + 1) % Capacity && r.rest.slots == q.slots
  {
    if q.full == 0 then TimedOut
    else Took(q.slots[q.begin], q.(begin := (q.begin + 1) % Capacity))
  }

  /** Every successful as-written timed dequeue breaks the queue invariant: the
      occupancy counter still counts the item just removed, so `end` no longer
      lies `full` slots after `begin`. */
  lemma TimedDequeueAsWrittenBreaksInvariant<T>(q: Queue<T>)
    requires Valid(q) && q.full > 0
    ensures TimedDequeueAsWritten(q).Took?
    ensures !Valid(TimedDequeueAsWritten(q).rest)
  {
    ModStep(q.begin, q.full);
    ModSucc(q.begin + q.full);
  }

  /** Stepping a position below 128 by one always changes its slot. */
  lemma ModSucc(n: nat)
    requires n < 2 * Capacity
    ensures (n + 1) % Capacity != n % Capacity
  {
    if n >= Capacity {
      assert n % Capacity == n - Capacity;
    }
  }

  /** A concrete instance: one message on a fresh queue, taken by the as-written
      timed dequeue, leaves a queue that still claims one occupied slot while its
      head and tail meet, so `full + free` stays 64 but `full` is wrong. */
  lemma TimedDequeueAsWrittenExample()
    ensures var q := Enqueue(Init(0), 42);
            var r := TimedDequeueAsWritten(q);
            && r.Took? && r.item == 42
            && r.rest.full == 1 && r.rest.begin == r.rest.end
  {
  }

  /** Enqueues `xs` in order (a producer calling enqueue once per item). */
  function EnqueueAll<T>(q: Queue<T>, xs: seq<T>): (q': Queue<T>)
    requires Valid(q)
    requires |xs| <= q.free
    ensures Valid(q')
    ensures Contents(q') == Contents(q) + xs
    ensures q'.free == q.free - |xs|
    decreases |xs|
  {
    if xs == [] then q
    else
      var q1 := Enqueue(q, xs[0]);
      var q' := EnqueueAll(q1, xs[1..]);
      assert Contents(q) + xs == Contents(q) + [xs[0]] + xs[1..];
      q'
  }

  /** Dequeues `n` items (a consumer calling dequeue `n` times), collecting
      them in the order taken. */
  function DequeueN<T>(q: Queue<T>, n: nat): (r: (seq<T>, Queue<T>))
    requires Valid(q)
    requires n <= q.full
    ensures Valid(r.1)
    ensures r.0 == Contents(q)[..n]
    ensures Contents(r.1) == Contents(q)[n..]
    ensures r.1.free == q.free + n
    decreases n
  {
    if n == 0 then ([], q)
    else
      var (x, q1) := Dequeue(q);
      var (xs, q') := DequeueN(q1, n - 1);
      assert [x] + xs == Contents(q)[..n];
      (([x] + xs), q')
  }

  /** FIFO: whatever a single producer enqueues on a queue, a single consumer
      that then takes as many items receives the older items first and then
      exactly the new ones, in the order they were enqueued; nothing is lost or
      duplicated. */
  lemma {:induction false} Fifo<T>(q: Queue<T>, xs: seq<T>)
    requires Valid(q)
    requires |xs| <= q.free
    ensures var (out, q') := DequeueN(EnqueueAll(q, xs), q.full + |xs|);
            out == Contents(q) + xs && Contents(q') == [] && q'.free == Capacity
  {
  }

  /** One call on a queue: an enqueue by the producer or a dequeue by the consumer. */
  datatype Op<T> = Put(item: T) | Take

  /** The items a sequence of calls enqueues, in call order. */
  function Puts<T>(ops: seq<Op<T>>): seq<T>
    decreases |ops|
  {
    if ops == [] then []
    else (if ops[0].Put? then [ops[0].item] else []) + Puts(ops[1..])
  }

  /** Outcome of a sequence of calls: one of them would wait for ever (no
      other party runs in between), or all ran, yielding the dequeued items
      in order and the final queue. */
  datatype Trace<T> = Blocked | Ran(out: seq<T>, final: Queue<T>)

  /** Runs an interleaving of enqueues and dequeues on a queue. */
  function Run<T>(q: Queue<T>, ops: seq<Op<T>>): (r: Trace<T>)
    requires Valid(q)
    ensures r.Ran? ==> Valid(r.final)
    decreases |ops|
  {
    if ops == [] then Ran([], q)
    else match ops[0]
      case Put(x) =>
        if q.free == 0 then Blocked else Run(Enqueue(q, x), ops[1..])
      case Take =>
        if q.full == 0 then Blocked
        else
          var (x, q1) := Dequeue(q);
          match Run(q1, ops[1..])
          case Blocked => Blocked
          case Ran(out, f) => Ran([x] + out, f)
  }

  /** FIFO under any interleaving of one producer and one consumer that never
      blocks: the items held at the start followed by everything enqueued are
      exactly the items dequeued followed by the items still held. So the
      consumer receives a prefix of that sequence, in order, and nothing is
      lost or duplicated. */
  lemma {:induction false} RunIsFifo<T>(q: Queue<T>, ops: seq<Op<T>>)
    requires Valid(q)
    requires Run(q, ops).Ran?
    ensures Contents(q) + Puts(ops) == Run(q, ops).out + Contents(Run(q, ops).final)
    decreases |ops|
  {
    if ops != [] {
      var rest := ops[1..];
      if ops[0].Put? {
        var x := ops[0].item;
        var q1 := Enqueue(q, x);
        assert Run(q, ops) == Run(q1, rest);
        RunIsFifo(q1, rest);
        assert Puts(ops) == [x] + Puts(rest);
        var r := Run(q1, rest);
        AppendPut(Contents(q), x, Contents(q1), Puts(rest), r.out, Contents(r.final));
      } else {
        var (x, q1) := Dequeue(q);
        var r := Run(q1, rest);
        assert r.Ran? && Run(q, ops) == Ran([x] + r.out, r.final);
        RunIsFifo(q1, rest);
        assert Puts(ops) == Puts(rest);
        AppendTake(Contents(q), x, Contents(q1), Puts(rest), r.out, Contents(r.final));
      }
    }
  }

  lemma AppendPut<T>(c: seq<T>, x: T, c1: seq<T>, p: seq<T>, out: seq<T>, f: seq<T>)
    requires c1 == c + [x] && c1 + p == out + f
    ensures c + ([x] + p) == out + f
  {
    assert c + ([x] + p) == (c + [x]) + p;
  }

  lemma AppendTake<T>(c: seq<T>, x: T, c1: seq<T>, p: seq<T>, out: seq<T>, f: seq<T>)
    requires c == [x] + c1 && c1 + p == out + f
    ensures c + p == ([x] + out) + f
  {
    assert c + p == [x] + (c1 + p);
  }

  /** Occupancy and free slots always add up to the capacity, each in [0, 64]. */
  lemma CountersBounded<T>(q: Queue<T>)
    requires Valid(q)
    ensures q.full == |Contents(q)| && q.free == Capacity - |Contents(q)|
    ensures 0 <= q.full <= Capacity && 0 <= q.free <= Capacity
  {
  }
}

=== FILE: routing.dfy ===
/** The routing layer's public operations and worker-loop bodies of
    AlohaRoute/Routing/routing.c, over an explicit node context instead of the
    file's static globals. One iteration of each worker loop is a pure step;
    what the MAC layer receives and sends appears as values. */
module Routing {
  import opened Common
  import RingQueue
  import opened Codec
  import NextHop

  /** Per-node state: the node's own address (`mac.addr`), the neighbour pool,
      the outbound and inbound queues, and which worker loops run. */
  datatype Context = Context(
    self: byte,
    pool: seq<byte>,
    sendQ: RingQueue.Queue<Message>,
    recvQ: RingQueue.Queue<Message>,
    receiverRunning: bool,
    senderRunning: bool)

  /** The invariant every reachable node keeps: both queues are well formed
      and hold only messages whose `len` payload bytes are present, the
      receiver worker runs, and the sender worker runs exactly on a node other
      than the sink. */
  predicate Valid(c: Context)
  {
    && |c.pool| == PoolSize
    && RingQueue.Valid(c.sendQ) && AllFit(RingQueue.Contents(c.sendQ))
    && RingQueue.Valid(c.recvQ) && AllFit(RingQueue.Contents(c.recvQ))
    && c.receiverRunning
    && (c.senderRunning <==> c.self != AddrSink)
  }

  function Outbound(c: Context): seq<Message>
    requires Valid(c)
  {
    RingQueue.Contents(c.sendQ)
  }

  function Inbound(c: Context): seq<Message>
    requires Valid(c)
  {
    RingQueue.Contents(c.recvQ)
  }

  /** `routingInit`: both queues start empty; the receiver worker always
      starts, the sender worker only on a node other than the sink. The
      source's constant return value 1 is not modelled; only the initial
      context is returned. */
  function Init(self: byte, pool: seq<byte>): (c: Context)
    requires |pool| == PoolSize
    ensures Valid(c) && c.self == self && c.pool == pool
    ensures Outbound(c) == [] && Inbound(c) == []
    ensures c.sendQ.free == RingQueue.Capacity && c.recvQ.free == RingQueue.Capacity
    ensures c.receiverRunning
    ensures c.senderRunning <==> self != AddrSink
  {
    Context(self, pool, RingQueue.Init(Zero), RingQueue.Init(Zero), true, self != AddrSink)
  }

  /** `routingSend(dest, data, len)` with `data` holding `len` bytes. The
      `draws` are the `rand()` values the selector consumes. The returned
      code is always 1. */
  function Send(c: Context, dest: byte, payload: seq<byte>, draws: seq<nat>): (r: (int, Context))
    requires Valid(c) && c.sendQ.free > 0
    requires |payload| < 0x1_0000_0000
    requires |draws| > MaxTrials
    ensures r.0 == 1
    ensures Valid(r.1) && r.1.self == c.self && r.1.pool == c.pool && r.1.recvQ == c.recvQ
    ensures |Outbound(r.1)| == |Outbound(c)| + 1
    ensures Outbound(r.1)[..|Outbound(c)|] == Outbound(c)
    ensures var m := Outbound(r.1)[|Outbound(c)|];
            && m.ctrl == CtrlPkt && m.src == c.self && m.numHops == 0 && m.dest == dest
            && m.data == payload && Fits(m)
            && m.len == |payload| % 0x1_0000
            && m.next == NextHop.Select(c.self, c.pool, draws).addr
            && (m.next == AddrSink || (m.next in c.pool && m.next < c.self))
  {
    var msg := Message(
      src := c.self,
      prev := 0,
      numHops := 0,
      dest := dest,
      next := NextHop.Select(c.self, c.pool, draws).addr,
      data := payload,
      len := ToU16(|payload|),
      ctrl := CtrlPkt);
    var q := RingQueue.Enqueue(c.sendQ, msg);
    assert Outbound(c.(sendQ := q)) == Outbound(c) + [msg];
    (1, c.(sendQ := q))
  }

  /** What a receive hands the application: the header (destination, source,
      hop count), the copied payload, and the returned length. */
  datatype Delivery = Delivery(dst: byte, src: byte, numHops: u16, data: seq<byte>, len: u16)

  /** The copy-out of a dequeued message common to both receive calls. */
  function CopyOut(m: Message): (d: Delivery)
    requires Fits(m)
    ensures d.dst == m.dest && d.src == m.src && d.numHops == m.numHops
    ensures d.len == m.len && |d.data| == d.len && d.data == m.data[..m.len]
  {
    Delivery(m.dest, m.src, m.numHops, Payload(m), m.len)
  }

  /** `routingReceive`: takes the oldest inbound message (waiting is the
      precondition that one exists) and copies it out. */
  function Receive(c: Context): (r: (Delivery, Context))
    requires Valid(c) && c.recvQ.full > 0
    ensures Valid(r.1) && r.1 == c.(recvQ := r.1.recvQ)
    ensures r.0 == CopyOut(Inbound(c)[0])
    ensures Inbound(r.1) == Inbound(c)[1..]
  {
    var (m, q) := RingQueue.Dequeue(c.recvQ);
    (CopyOut(m), c.(recvQ := q))
  }

  /** Result of a timed receive: an explicit timeout, or a delivery. */
  datatype Reception = NoMessage | Got(delivery: Delivery)

  /** `routingTimedReceive` as evidently intended: on timeout it returns an
      explicit "no message" and leaves the context as it was; otherwise it
      behaves like `Receive`. */
  function TimedReceive(c: Context): (r: (Reception, Context))
    requires Valid(c)
    ensures Valid(r.1) && r.1 == c.(recvQ := r.1.recvQ)
    ensures r.0.NoMessage? <==> Inbound(c) == []
    ensures r.0.NoMessage? ==> r.1 == c
    ensures r.0.Got? ==> r.0.delivery == CopyOut(Inbound(c)[0]) && Inbound(r.1) == Inbound(c)[1..]
  {
    match RingQueue.TimedDequeue(c.recvQ)
    case TimedOut => (NoMessage, c)
    case Took(m, q) => (Got(CopyOut(m)), c.(recvQ := q))
  }

  /** `routingTimedReceive` as written: on timeout the local `msg` is never
      assigned, so the header fields and the length are copied out of
      whatever `stale` record the stack held; on success the queue is left
      with the as-written timed dequeue's counters. */
  function TimedReceiveAsWritten(c: Context, stale: Message): (r: (Delivery, RingQueue.Queue<Message>))
    requires Valid(c) && Fits(stale)
    ensures Inbound(c) == [] ==> r.0 == CopyOut(stale) && r.1 == c.recvQ
    ensures Inbound(c) != [] ==> r.0 == CopyOut(Inbound(c)[0]) && r.1.full == c.recvQ.full
  {
    match RingQueue.TimedDequeueAsWritten(c.recvQ)
    case TimedOut => (CopyOut(stale), c.recvQ)
    case Took(m, q) => (CopyOut(m), q)
  }

  /** On an empty inbound queue, what the as-written timed receive reports
      depends on the uninitialised record: two different stack contents give
      two different answers, and neither says that nothing arrived. */
  lemma TimedReceiveAsWrittenTimeoutUnspecified(self: byte, pool: seq<byte>)
    requires |pool| == PoolSize
    ensures var c := Init(self, pool);
            && TimedReceiveAsWritten(c, Zero).0.len == 0
            && TimedReceiveAsWritten(c, Zero.(len := 1, data := [9], src := 3)).0
               == Delivery(0, 3, 0, [9], 1)
            && TimedReceive(c).0 == NoMessage
  {
  }

  /** A call of the MAC layer's send: destination address and packet bytes. */
  datatype Transmission = Transmission(to: byte, bytes: seq<byte>)

  /** One iteration of `sendPackets_func`: take the oldest outbound message,
      encode it, and hand it to the MAC addressed to its precomputed next hop.
      Only a node whose sender worker runs takes this step; on the sink the
      outbound queue is never drained.
      `hopsHi` and `lenHi` are the encoder's unwritten bytes. */
  function SenderStep(c: Context, hopsHi: byte, lenHi: byte): (r: (Transmission, Context))
    requires Valid(c) && c.senderRunning && c.sendQ.full > 0
    requires Encodable(Outbound(c)[0])
    ensures Valid(r.1) && r.1.recvQ == c.recvQ && r.1.self == c.self && r.1.pool == c.pool
    ensures Outbound(r.1) == Outbound(c)[1..]
    ensures r.0.to == Outbound(c)[0].next
    ensures r.0.bytes == Encode(Outbound(c)[0], c.self, hopsHi, lenHi)
  {
    var (m, q) := RingQueue.Dequeue(c.sendQ);
    (Transmission(m.next, Encode(m, c.self, hopsHi, lenHi)), c.(sendQ := q))
  }

  /** What one receiver iteration does with a packet. */
  datatype Outcome = Drop | Deliver(msg: Message) | Forward(to: byte, bytes: seq<byte>)

  /** The receiver's decision read off the raw bytes: a data packet addressed
      to everyone or to this node. */
  predicate ForMe(self: byte, pkt: seq<byte>)
  {
    |pkt| > 0 && pkt[0] == CtrlPkt && |pkt| > 1 && (pkt[1] == AddrBroadcast || pkt[1] == self)
  }

  /** A received data packet carries a complete header and payload. */
  predicate Receivable(pkt: seq<byte>)
  {
    |pkt| > 0 && pkt[0] == CtrlPkt ==> Parsable(pkt)
  }

  /** The body of the `recvPackets_func` loop for the `pktSize` bytes a
      `MAC_timedrecv` returned (none on timeout). `prev` is the MAC's
      last-receive sender; `draws` feed the selector on forwarding. */
  function Dispatch(self: byte, pool: seq<byte>, pkt: seq<byte>, prev: byte, draws: seq<nat>): (r: Outcome)
    requires |pool| == PoolSize && |draws| > MaxTrials
    requires Receivable(pkt)
    ensures r.Drop? <==> |pkt| == 0 || pkt[0] != CtrlPkt
    ensures r.Deliver? <==> ForMe(self, pkt)
    ensures r.Deliver? ==> r.msg == Decode(pkt, prev).msg && r.msg.dest == pkt[1] && Fits(r.msg)
    ensures r.Forward? ==>
              && r.to == NextHop.Select(self, pool, draws).addr
              && (r.to == AddrSink || (r.to in pool && r.to < self))
              && |r.bytes| == |pkt| && pkt[1] != AddrBroadcast && pkt[1] != self
              && r.bytes[3..5] == [Lo(Inc16(HopField(pkt))), Hi(Inc16(HopField(pkt)))]
              && (forall i :: 0 <= i < |pkt| && i != 3 && i != 4 ==> r.bytes[i] == pkt[i])
  {
    if |pkt| == 0 then Drop
    else if pkt[0] != CtrlPkt then Drop
    else
      var d := Decode(pkt, prev);
      if d.msg.dest == AddrBroadcast || d.msg.dest == self then Deliver(d.msg)
      else
        LoHiLe16(d.raw[3], d.raw[4]);
        Forward(NextHop.Select(self, pool, draws).addr, d.raw)
  }

  /** One receiver iteration applied to the node: a kept packet joins the
      inbound queue (waiting for a free slot is the precondition), a forwarded
      one becomes a single transmission, a dropped one changes nothing. */
  function ReceiverStep(c: Context, pkt: seq<byte>, prev: byte, draws: seq<nat>): (r: (Context, seq<Transmission>))
    requires Valid(c) && |draws| > MaxTrials
    requires Receivable(pkt)
    requires ForMe(c.self, pkt) ==> c.recvQ.free > 0
    ensures Valid(r.0) && r.0.sendQ == c.sendQ && r.0.self == c.self && r.0.pool == c.pool
    ensures |r.1| <= 1
    ensures ForMe(c.self, pkt) ==> Inbound(r.0) == Inbound(c) + [Decode(pkt, prev).msg] && r.1 == []
    ensures !ForMe(c.self, pkt) ==> Inbound(r.0) == Inbound(c)
    ensures |r.1| == 1 <==> |pkt| > 0 && pkt[0] == CtrlPkt && !ForMe(c.self, pkt)
    ensures |r.1| == 1 ==>
              && r.1[0].to == NextHop.Select(c.self, c.pool, draws).addr
              && |r.1[0].bytes| == |pkt|
              && r.1[0].bytes[3..5] == [Lo(Inc16(HopField(pkt))), Hi(Inc16(HopField(pkt)))]
              && (forall i :: 0 <= i < |pkt| && i != 3 && i != 4 ==> r.1[0].bytes[i] == pkt[i])
  {
    match Dispatch(c.self, c.pool, pkt, prev, draws)
    case Drop => (c, [])
    case Deliver(m) => (c.(recvQ := RingQueue.Enqueue(c.recvQ, m)), [])
    case Forward(to, bytes) => (c, [Transmission(to, bytes)])
  }

  /** The sending half of one hop: on a node other than the sink (the sink
      runs no sender) with an empty outbound queue, a send followed by one
      sender iteration transmits, to the selector's choice, the header
      `CTRL_PKT`, dest, the node's own address, hop count 0, the length, and
      then the payload (unwritten bytes taken as zero). */
  lemma {:induction false} SendTransmits(a: Context, dest: byte, payload: seq<byte>, draws: seq<nat>)
    requires Valid(a) && a.self != AddrSink && Outbound(a) == []
    requires |payload| < 0x100 && |draws| > MaxTrials
    ensures var a1 := Send(a, dest, payload, draws).1;
            && Encodable(Outbound(a1)[0])
            && SenderStep(a1, 0, 0).0
               == Transmission(NextHop.Select(a.self, a.pool, draws).addr,
                               [CtrlPkt, dest, a.self, 0, 0, |payload|, 0] + payload)
            && Outbound(SenderStep(a1, 0, 0).1) == []
  {
    var a1 := Send(a, dest, payload, draws).1;
    var m := Outbound(a1)[0];
    assert m.len == |payload| && m.data == payload && m.numHops == 0;
    assert Payload(m) == payload;
  }

  /** The packet a fresh send puts on the wire, as the next node decodes it:
      hop count 1, the sender as source, the payload intact. */
  lemma {:induction false} FreshPacketDecodes(dest: byte, src: byte, payload: seq<byte>)
    requires |payload| < 0x100
    ensures var pkt := [CtrlPkt, dest, src, 0, 0, |payload|, 0] + payload;
            && Parsable(pkt)
            && var d := Decode(pkt, src).msg;
            && d.dest == dest && d.src == src && d.numHops == 1
            && d.len == |payload| && d.data == payload
  {
    var pkt: seq<byte> := [CtrlPkt, dest, src, 0, 0, |payload|, 0] + payload;
    assert HopField(pkt) == 0 && LenField(pkt) == |payload|;
    assert pkt[HeaderSize..HeaderSize + |payload|] == payload;
  }

  /** The arriving half of one hop: a node with an empty inbound queue that
      receives such a packet addressed to it (or to everyone) keeps it and
      sends nothing, and the application then reads the destination, the
      originator as source, one hop, and the payload. */
  lemma {:induction false} ArrivalDelivers(b: Context, dest: byte, src: byte, payload: seq<byte>, draws: seq<nat>)
    requires Valid(b) && Inbound(b) == []
    requires |payload| < 0x100 && |draws| > MaxTrials
    requires dest == b.self || dest == AddrBroadcast
    ensures var pkt := [CtrlPkt, dest, src, 0, 0, |payload|, 0] + payload;
            && Receivable(pkt) && ForMe(b.self, pkt)
            && var r := ReceiverStep(b, pkt, src, draws);
            && r.1 == [] && r.0.recvQ.full > 0 && Fits(Inbound(r.0)[0])
            && Receive(r.0).0 == Delivery(dest, src, 1, payload, |payload|)
  {
    var pkt: seq<byte> := [CtrlPkt, dest, src, 0, 0, |payload|, 0] + payload;
    FreshPacketDecodes(dest, src, payload);
    var d := Decode(pkt, src).msg;
    var r := ReceiverStep(b, pkt, src, draws);
    assert Inbound(r.0) == [d];
    assert Payload(d) == payload;
  }

  /** One hop end to end: what a node other than the sink transmits arrives,
      at a node it is addressed to, as a delivery of the payload from the
      sender with hop count 1, and nothing is retransmitted. */
  lemma {:induction false} OneHopDelivery(a: Context, b: Context, dest: byte, payload: seq<byte>,
                                          draws: seq<nat>, drawsB: seq<nat>)
    requires Valid(a) && Valid(b) && a.self != AddrSink && Outbound(a) == [] && Inbound(b) == []
    requires |payload| < 0x100 && |draws| > MaxTrials && |drawsB| > MaxTrials
    requires dest == b.self || dest == AddrBroadcast
    ensures var a1 := Send(a, dest, payload, draws).1;
            && Encodable(Outbound(a1)[0])
            && var tx := SenderStep(a1, 0, 0).0;
            && Receivable(tx.bytes) && ForMe(b.self, tx.bytes)
            && var b1 := ReceiverStep(b, tx.bytes, a.self, drawsB);
            && b1.1 == [] && b1.0.recvQ.full > 0 && Fits(Inbound(b1.0)[0])
            && Receive(b1.0).0 == Delivery(dest, a.self, 1, payload, |payload|)
  {
    SendTransmits(a, dest, payload, draws);
    ArrivalDelivers(b, dest, a.self, payload, drawsB);
  }

  /** A relay does not re-encode: the next node decodes the forwarded bytes
      to the same destination, the same source byte (the originator, not the
      relay), the same payload, and a hop count two above the one on the
      received packet. */
  lemma {:induction false} RelayKeepsOrigin(self: byte, pool: seq<byte>, pkt: seq<byte>, prev: byte,
                                            draws: seq<nat>, prev2: byte)
    requires |pool| == PoolSize && |draws| > MaxTrials
    requires Parsable(pkt) && pkt[0] == CtrlPkt && !ForMe(self, pkt)
    ensures var r := Dispatch(self, pool, pkt, prev, draws);
            && r.Forward? && Parsable(r.bytes)
            && var d := Decode(r.bytes, prev2).msg;
            && d.src == pkt[2] && d.dest == pkt[1]
            && d.numHops == (HopField(pkt) + 2) % 0x1_0000
            && d.data == Decode(pkt, prev).msg.data
  {
    assert Dispatch(self, pool, pkt, prev, draws).bytes == Decode(pkt, prev).raw;
    DecodeTwice(pkt, prev, prev2);
    RedecodeKeepsFields(pkt, prev, prev2);
  }

  /** The originating half of the scenario of `SendScenario` and
      `ForwardScenario`: node 5 with pool 4, 3, 1 sends the five bytes "0512"
      and its terminator to the sink; the first draw names 4, so the sender
      hands a 12-byte packet with hop count 0 to node 4. */
  lemma {:induction false} SendScenario()
    ensures var (code, c1) := Send(Init(5, [4, 3, 1]), AddrSink, [0x30, 0x35, 0x31, 0x32, 0], [0, 0, 0, 0, 0]);
            && code == 1 && c1.sendQ.full == 1
            && SenderStep(c1, 0, 0).0
               == Transmission(4, [CtrlPkt, AddrSink, 5, 0, 0, 5, 0, 0x30, 0x35, 0x31, 0x32, 0])
  {
    var payload: seq<byte> := [0x30, 0x35, 0x31, 0x32, 0];
    var c0 := Init(5, [4, 3, 1]);
    assert NextHop.Select(5, [4, 3, 1], [0, 0, 0, 0, 0]).addr == 4;
    var (code, c1) := Send(c0, AddrSink, payload, [0, 0, 0, 0, 0]);
    var m := Outbound(c1)[0];
    assert m.next == 4 && m.len == 5 && m.data == payload;
    assert Payload(m) == payload;
  }

  /** The relaying half: node 4 (same pool) receives that packet from node 5,
      counts hop 1, is not the destination, rejects the candidate 4, takes 3,
      and forwards the same bytes with only the hop-count field set to 1. */
  lemma {:induction false} ForwardScenario()
    ensures var pkt: seq<byte> := [CtrlPkt, AddrSink, 5, 0, 0, 5, 0, 0x30, 0x35, 0x31, 0x32, 0];
            Dispatch(4, [4, 3, 1], pkt, 5, [0, 1, 0, 0, 0]) == Forward(3, pkt[3 := 1][4 := 0])
  {
    var pkt: seq<byte> := [CtrlPkt, AddrSink, 5, 0, 0, 5, 0, 0x30, 0x35, 0x31, 0x32, 0];
    NextHop.SecondDrawAccepted();
    assert HopField(pkt) == 0 && LenField(pkt) == 5;
    var d := Decode(pkt, 5);
    assert d.msg.dest == AddrSink && d.msg.numHops == 1;
    assert d.raw == pkt[3 := 1][4 := 0];
  }
}
